=== FILE: README.md ===
# SampleTask, modelled in Dafny

`SampleTask` is one processing step of a document-migration job. The
operator configures a command line, which `Runtime.exec` splits into words
and runs without a shell. The task refuses commands that mention
`shutdown`. For every document, it launches the command and stores the
command's standard output and standard error on the document, in the
fields `sampleTaskInput` and `sampleTaskErr`. It then tells the job to
continue, or reports the document as failed when the command cannot be
launched.

The model has three modules:

- `Strings` holds the two library operations the task relies on.
  `Contains` is Java's case-sensitive `String.contains`. Its contract says
  it answers true exactly when an occurrence exists (`IsSubstring`). `Join` is
  `Collectors.joining()`, which concatenates with no separator.
- `LineReader` models `BufferedReader.lines()` over a stream's text. A
  line ends at `\n`, `\r` or `\r\n`, and the terminator is dropped. A last
  line with no terminator is yielded only when it is non-empty. Two facts
  are proved:
  - joining the lines gives back the text with its terminators deleted;
  - reading back text that was printed line by line gives exactly those
    lines.
- `SampleTask` holds the class itself:
  - the form descriptors (the code declares two form fields);
  - the validator;
  - `init`;
  - `process`, written as a pure function of the task state, the document
    and a `Host`.

The `Host` supplies two things:

- The process launcher, a function from the command string to a `Launch`
  outcome. That outcome is an `IOException`, an unchecked exception, or a
  process with two streams. Each stream is either read to its end or
  fails to read.
- The set of readers whose `close` fails.

`process` returns a `Run`, which holds:

- the exit: a returned status, or an exception that escapes;
- the document;
- the fields written, in order;
- both reader variables (still null, open, or closed);
- the number of close failures that were swallowed.

Java exceptions are modelled explicitly:

- A read error raised by `lines()` is an `UncheckedIOException`. The
  `catch (IOException)` does not catch it, so it escapes `process`. The
  `finally` still closes the readers. Only a failed launch yields `FAILED`.
  Nothing written before the read error is rolled back.
- If `process` runs before `init`, or `init` got no `commandField`
  entry, a `NullPointerException` escapes. `validateFormFields` on a map
  with no `commandField` entry also throws a `NullPointerException`. The
  model reports that case as `CommandMissing`.
- `IOUtils.closeQuietly` swallows a failing close. The reader still counts
  as closed, because `BufferedReader.close` drops its underlying stream in
  a `finally` even when closing that stream throws.

## Model

| member | source | states |
|---|---|---|
| Strings.Contains | sampleTask/src/main/java/com/simflofy/sample/SampleTask.java:114 | the left-to-right containment scan answers true exactly when the pattern occurs at some index of the command, compared character by character |
| Strings.Join | sampleTask/src/main/java/com/simflofy/sample/SampleTask.java:85 | the empty-separator join is exactly as long as all the lines together |
| Strings.JoinAppend | sampleTask/src/main/java/com/simflofy/sample/SampleTask.java:85 | joining with the empty separator distributes over concatenation of the line lists |
| Strings.JoinKeepsParts | sampleTask/src/main/java/com/simflofy/sample/SampleTask.java:85 | every line appears unchanged in the joined value, at the offset equal to the total length of the lines before it |
| LineReader.Lines | sampleTask/src/main/java/com/simflofy/sample/SampleTask.java:84-85 | no line yielded by the reader contains a line terminator, and a stream yields no lines exactly when it is empty |
| LineReader.JoinedLinesDropTerminators | sampleTask/src/main/java/com/simflofy/sample/SampleTask.java:85 | collecting the lines with the empty separator yields the stream text with every `\r` and `\n` removed and nothing else changed |
| LineReader.LinesOfPrinted | sampleTask/src/main/java/com/simflofy/sample/SampleTask.java:84-85 | text printed as terminator-free lines, each followed by a line feed, is read back as exactly those lines |
| SampleTask.AddSingleField | sampleTask/src/main/java/com/simflofy/sample/SampleTask.java:85 | the framework's single-valued field update, modelled as a map update (an assumption, see "Left out"): the named field holds the new value, replacing any earlier one, and every other field is unchanged |
| SampleTask.TryBody | sampleTask/src/main/java/com/simflofy/sample/SampleTask.java:78-90 | the try block reaches the catch block exactly when the launch throws IOException, and completes exactly when both streams read to the end. It writes the input field first and the error field second, and nothing else. A stdout read error leaves the document untouched; a stderr read error leaves only the input field written. The stdout reader is opened once the process exists, and the stderr reader only after stdout was read |
| SampleTask.CloseQuietly | sampleTask/src/main/java/com/simflofy/sample/SampleTask.java:96-97 | a null reader stays null; an open reader ends up closed even when its close fails, and that failure is counted, not raised |
| SampleTask.GetFormFields | sampleTask/src/main/java/com/simflofy/sample/SampleTask.java:58-64 | exactly two descriptors with distinct names: the `commandField` text field with default `pwd`, then the `testCheck` check box |
| SampleTask.DefaultConfigurationAccepted | sampleTask/src/main/java/com/simflofy/sample/SampleTask.java:60 | a submission whose `commandField` holds the form's default value (`pwd`) passes validation |
| SampleTask.ValidateFormFields | sampleTask/src/main/java/com/simflofy/sample/SampleTask.java:111-120 | a message is returned exactly when the `commandField` value contains `shutdown` case-sensitively, and it is the fixed rejection text; the result is null otherwise; a missing entry is a null dereference |
| SampleTask.RejectionNamesForbiddenWord | sampleTask/src/main/java/com/simflofy/sample/SampleTask.java:116 | the rejection message is non-empty and contains `shutdown` |
| SampleTask.ShutdownScenario | sampleTask/src/main/java/com/simflofy/sample/SampleTask.java:112-116 | the command `shutdown now` is rejected with a message that contains `shutdown` |
| SampleTask.Init | sampleTask/src/main/java/com/simflofy/sample/SampleTask.java:130-136 | the task keeps the submitted map, and its command is that map's `commandField` entry, or null when the entry is absent |
| SampleTask.ValidatedCommandIsSafe | sampleTask/src/main/java/com/simflofy/sample/SampleTask.java:111-136 | a configuration that passed validation yields a task whose command is present and does not contain `shutdown` |
| SampleTask.Process | sampleTask/src/main/java/com/simflofy/sample/SampleTask.java:73-102 | the only statuses are CONTINUE and FAILED. FAILED happens exactly when the launch throws IOException, and then the document is untouched. CONTINUE happens exactly when both streams read to the end, and then both fields hold the joined lines, with no exit code consulted. The writes are the input field and then the error field. Other fields are unchanged. When an exception escapes, nothing is rolled back: after a stderr read error only the input field is written, and on any earlier exception the document is untouched. Every opened reader is closed, and an unopened one stays null. Close failures are only counted |
| SampleTask.CapturedFieldsAreStreamText | sampleTask/src/main/java/com/simflofy/sample/SampleTask.java:84-89 | after CONTINUE, the two fields equal the stdout and stderr texts with their line terminators removed |
| SampleTask.RerunOverwritesFields | sampleTask/src/main/java/com/simflofy/sample/SampleTask.java:85-89 | processing a document that an earlier run already filled gives the same document as processing the original: both fields are overwritten with the fresh output, never accumulated. This holds for any two launcher answers under which both runs end in CONTINUE |
| SampleTask.CloseFailuresNeverChangeOutcome | sampleTask/src/main/java/com/simflofy/sample/SampleTask.java:95-98 | whichever closes fail, the exit, the document, the writes and the reader states are the same |
| SampleTask.LaunchesConfiguredCommand | sampleTask/src/main/java/com/simflofy/sample/SampleTask.java:81 | the run depends on the launcher only through its answer for the `commandField` entry captured at init, so that string is launched untransformed |
| SampleTask.ExitCodeNeverConsulted | sampleTask/src/main/java/com/simflofy/sample/SampleTask.java:81-101 | launches that differ only in the process's exit code give identical runs |
| SampleTask.EchoHelloScenario | sampleTask/src/main/java/com/simflofy/sample/SampleTask.java:81-101 | a command that prints `hello` on one line and nothing on stderr ends with CONTINUE, input field `hello` and an empty error field |

## Left out

- Process spawning. `Runtime.exec`, `Process` and the stream classes are
  replaced by the `Host` launcher. This includes how `Runtime.exec` splits
  the command into words, and its exception for an empty command. An
  unchecked exception from the launcher is the `LaunchThrows` outcome.
- Character decoding. `InputStreamReader` decodes bytes with the platform
  charset. A stream is modelled as the text it decodes to.
- Logging. The log4j call in the `catch` block has no observable effect on
  the model.
- Localized labels. `getTaskMessage` lookups and the message source set up
  in the constructor are external. Descriptors carry the message keys
  instead of the resolved text.
- The constructor's `setName` and `setMessageBase`, and `close()`. They only
  configure or delegate to the framework base class, which is not part of
  this model.
- `super.init` and `getFormFieldMap`. The base class is not part of this
  model. `Init` assumes `getFormFieldMap` returns the map passed to
  `super.init`. Acquiring the runtime is modelled as the step after which
  `process` may launch.
- Null values inside the submitted map. A Dafny map has no null values, so
  a `commandField` entry mapped to null is not modelled.
- `RepositoryDocument`. Only its string fields are modelled, as a map.
  `addSingleField` is assumed to replace any earlier value, because the
  framework class is not part of this model.
- Waiting for the process. The code never calls `waitFor` or `exitValue`.
  `Launched` carries an exit code only so that `ExitCodeNeverConsulted`
  can state that nothing reads it.
- Blocking reads and the lack of a timeout. These are runtime concerns. A
  stream is assumed to reach its end or fail.
- The `testCheck` value. No code reads it.

=== FILE: line_reader.dfy ===
/**
 What `BufferedReader.lines()` yields for a stream read to its end. A line is
 ended by a line feed, a carriage return, or a carriage return followed
 immediately by a line feed; the terminator is not part of the line. A last
 line without a terminator is yielded only when it is non-empty, so an empty
 stream has no lines and a stream ending in a terminator has no trailing
 empty line. The stream is modelled as the decoded text it carries.
 */
module LineReader {
  import opened Strings

  predicate IsTerminator(c: char)
  {
    c == '\n' || c == '\r'
  }

  /** `line` holds no line terminator. */
  ghost predicate Unterminated(line: string)
  {
    forall j :: 0 <= j < |line| ==> !IsTerminator(line[j])
  }

  /** Index of the first line terminator in `s`, or `|s|` when there is none. */
  function LineEnd(s: string): (k: nat)
    ensures k <= |s|
    ensures k < |s| ==> IsTerminator(s[k])
    ensures Unterminated(s[..k])
  {
    if s == [] || IsTerminator(s[0]) then 0
    else
      assert s[..1 + LineEnd(s[1..])] == [s[0]] + s[1..][..LineEnd(s[1..])];
      1 + LineEnd(s[1..])
  }

  /** Where the line ending at `k` is followed by the next line: past a
      "\r\n" pair as a whole, otherwise past one terminator. */
  function NextLineStart(s: string, k: nat): (next: nat)
    requires k < |s| && IsTerminator(s[k])
    ensures k < next <= |s|
    ensures forall j :: k <= j < next ==> IsTerminator(s[j])
  {
    if s[k] == '\r' && k + 1 < |s| && s[k + 1] == '\n' then k + 2 else k + 1
  }

  /** The lines of a stream whose whole text is `s`, in order. */
  function Lines(s: string): (ls: seq<string>)
    ensures forall i :: 0 <= i < |ls| ==> Unterminated(ls[i])
    ensures ls == [] <==> s == []
    decreases |s|
  {
    if s == [] then []
    else
      var k := LineEnd(s);
      if k == |s| then
        assert s[..k] == s;
        [s]
      else
        [s[..k]] + Lines(s[NextLineStart(s, k)..])
  }

  /** `s` with every line terminator character removed. */
  function WithoutTerminators(s: string): string
  {
    if s == [] then ""
    else if IsTerminator(s[0]) then WithoutTerminators(s[1..])
    else [s[0]] + WithoutTerminators(s[1..])
  }

  lemma {:induction false} WithoutTerminatorsAppend(a: string, b: string)
    ensures WithoutTerminators(a + b) == WithoutTerminators(a) + WithoutTerminators(b)
    decreases |a|
  {
    if a == [] {
      assert a + b == b;
    } else {
      WithoutTerminatorsAppend(a[1..], b);
      assert (a + b)[1..] == a[1..] + b;
    }
  }

  lemma {:induction false} UnterminatedKept(s: string)
    requires Unterminated(s)
    ensures WithoutTerminators(s) == s
    decreases |s|
  {
    if s != [] {
      UnterminatedKept(s[1..]);
      assert s == [s[0]] + s[1..];
    }
  }

  lemma {:induction false} TerminatorsVanish(s: string)
    requires forall j :: 0 <= j < |s| ==> IsTerminator(s[j])
    ensures WithoutTerminators(s) == ""
    decreases |s|
  {
    if s != [] {
      TerminatorsVanish(s[1..]);
    }
  }

  /** Deleting terminators from a line, its terminator and the rest leaves the line and the rest. */
  lemma {:induction false} DropLineEnd(s: string, k: nat, next: nat)
    requires k < next <= |s|
    requires Unterminated(s[..k])
    requires forall j :: k <= j < next ==> IsTerminator(s[j])
    ensures WithoutTerminators(s) == s[..k] + WithoutTerminators(s[next..])
  {
    var line, gap, rest := s[..k], s[k..next], s[next..];
    assert s == (line + gap) + rest;
    WithoutTerminatorsAppend(line + gap, rest);
    WithoutTerminatorsAppend(line, gap);
    UnterminatedKept(line);
    TerminatorsVanish(gap);
  }

  /** Joining the lines with the empty separator gives back the stream text
      with its line terminators deleted and nothing else changed. */
  lemma {:induction false} JoinedLinesDropTerminators(s: string)
    ensures Join(Lines(s)) == WithoutTerminators(s)
    decreases |s|
  {
    if s != [] {
      var k := LineEnd(s);
      if k == |s| {
        assert s[..k] == s;
        JoinCons(s, []);
        UnterminatedKept(s);
      } else {
        var next := NextLineStart(s, k);
        var rest := s[next..];
        assert Lines(s) == [s[..k]] + Lines(rest);
        JoinedLinesDropTerminators(rest);
        JoinCons(s[..k], Lines(rest));
        DropLineEnd(s, k, next);
      }
    }
  }

  /** The text a process writes when it prints each of `ls` followed by a line feed. */
  function Printed(ls: seq<string>): string
  {
    if ls == [] then "" else ls[0] + "\n" + Printed(ls[1..])
  }

  /** The first terminator of `x + t` is the first character of `t` when `x` has none. */
  lemma {:induction false} LineEndAfter(x: string, t: string)
    requires Unterminated(x)
    requires t != [] && IsTerminator(t[0])
    ensures LineEnd(x + t) == |x|
  {
    var s := x + t;
    var k := LineEnd(s);
    assert forall j :: 0 <= j < |x| ==> s[j] == x[j];
    assert forall j :: 0 <= j < k ==> s[..k][j] == s[j];
    assert s[|x|] == t[0];
  }

  /** Reading back what was printed line by line yields exactly those lines. */
  lemma {:induction false} LinesOfPrinted(ls: seq<string>)
    requires forall i :: 0 <= i < |ls| ==> Unterminated(ls[i])
    ensures Lines(Printed(ls)) == ls
    decreases |ls|
  {
    if ls != [] {
      var x, rest := ls[0], Printed(ls[1..]);
      var s := Printed(ls);
      assert s == x + ("\n" + rest);
      LineEndAfter(x, "\n" + rest);
      assert s[|x|] == '\n';
      assert s[..|x|] == x;
      assert s[|x| + 1..] == rest;
      LinesOfPrinted(ls[1..]);
      assert ls == [x] + ls[1..];
    }
  }
}

=== FILE: sample_task.dfy ===
/**
 The sample migration task: a configuration form with one free-text command
 field, a validator that refuses commands mentioning "shutdown", an `init`
 that captures the command, and a per-document `process` that launches the
 command and records its standard output and standard error on the document.

 The host framework is made explicit: the document is a map from field name
 to value, the process launcher is a function from the command string to a
 `Launch` outcome, and the failures of closing a reader are a set of stream
 names. Java exceptions that leave a method are an outcome of their own.
 */
module SampleTask {
  import opened Strings
  import opened LineReader

  // Field names and fixed values of the task.
  const InputField: string := "sampleTaskInput"
  const ErrField: string := "sampleTaskErr"
  const CommandStringField: string := "commandField"
  const InvalidCommand1: string := "shutdown"
  const TestCheckBox: string := "testCheck"
  const DefaultCommand: string := "pwd"
  const RejectionMessage: string := "Invalid command found. '" + InvalidCommand1 + "' is not allowed."

  /** A Java reference that may be null. */
  datatype Option<T> = None | Some(value: T)

  /** A repository document as far as this task sees it: single-valued string fields. */
  type Document = map<string, string>

  /** The framework's `addSingleField`: sets `name` to `value`, replacing any earlier value. */
  function AddSingleField(doc: Document, name: string, value: string): (d: Document)
    ensures name in d && d[name] == value
    ensures forall k :: k != name ==> (k in d <==> k in doc)
    ensures forall k :: k != name && k in doc ==> d[k] == doc[k]
  {
    doc[name := value]
  }

  /* ----------------------------- Configuration form ----------------------------- */

  /** A form field descriptor. Labels and descriptions are message keys that
      the framework resolves through its message bundle. */
  datatype EditProperty =
    | TextProperty(name: string, labelKey: string, defaultValue: string)
    | CheckProperty(name: string, labelKey: string, descriptionKey: string)

  /** The form the operator fills in: the command text field, then an inert check box. */
  function GetFormFields(): (eps: seq<EditProperty>)
    ensures |eps| == 2 && eps[0].name != eps[1].name
    ensures eps[0].TextProperty? && eps[0].name == CommandStringField
    ensures eps[0].defaultValue == DefaultCommand
    ensures eps[1].CheckProperty? && eps[1].name == TestCheckBox
  {
    [ TextProperty(CommandStringField, "commandFieldLabel", DefaultCommand),
      CheckProperty(TestCheckBox, "testMessage", "testMessageDescription") ]
  }

  /* ---------------------------------- Validation --------------------------------- */

  /** What `validateFormFields` produces: null (no issue), a message, or a
      NullPointerException when the submission has no command entry. */
  datatype Validation = Accepted | Rejected(message: string) | CommandMissing

  function ValidateFormFields(formFields: map<string, string>): (v: Validation)
    ensures v.CommandMissing? <==> CommandStringField !in formFields
    ensures v.Rejected? <==>
      CommandStringField in formFields && IsSubstring(InvalidCommand1, formFields[CommandStringField])
    ensures v.Rejected? ==> v.message == RejectionMessage
  {
    if CommandStringField !in formFields then CommandMissing
    else
      var cmd := formFields[CommandStringField];
      if Contains(cmd, InvalidCommand1) then Rejected(RejectionMessage) else Accepted
  }

  /** The rejection message is not empty and names the forbidden word. */
  lemma RejectionNamesForbiddenWord()
    ensures |RejectionMessage| > 0
    ensures IsSubstring(InvalidCommand1, RejectionMessage)
  {
    assert OccursAt(RejectionMessage, InvalidCommand1, 24);
  }

  /** The command field's default value passes validation. */
  lemma DefaultConfigurationAccepted()
    ensures ValidateFormFields(map[CommandStringField := GetFormFields()[0].defaultValue]) == Accepted
  {
    assert !Contains(DefaultCommand, InvalidCommand1);
  }

  /* ----------------------------------- Lifecycle ---------------------------------- */

  /** Task state: before `init`, the command and the runtime are null. */
  datatype Task =
    | Constructed
    | Initialized(formFieldMap: map<string, string>, command: Option<string>)

  /** `init`: keeps the submitted map and the command entry it holds (null when absent). */
  function Init(formFields: map<string, string>): (t: Task)
    ensures t.Initialized? && t.formFieldMap == formFields
    ensures t.command.Some? <==> CommandStringField in formFields
    ensures t.command.Some? ==> t.command.value == formFields[CommandStringField]
  {
    Initialized(formFields, if CommandStringField in formFields then Some(formFields[CommandStringField]) else None)
  }

  /** A configuration that passed validation gives a task whose command is
      present and free of the forbidden word. */
  lemma ValidatedCommandIsSafe(formFields: map<string, string>)
    requires ValidateFormFields(formFields) == Accepted
    ensures Init(formFields).command.Some?
    ensures !IsSubstring(InvalidCommand1, Init(formFields).command.value)
  {
  }

  /* -------------------------------- Per-document run ------------------------------- */

  /** One output stream of the launched process, as read to its end: its text,
      or a read error (`lines()` reports it as an UncheckedIOException). */
  datatype Stream = Readable(text: string) | Unreadable

  /** The launcher's answer for a command string: an IOException, an unchecked
      exception (for instance for an empty command), or a running process. */
  datatype Launch = LaunchFails | LaunchThrows | Launched(stdout: Stream, stderr: Stream, exitCode: int)

  datatype StreamName = Stdout | Stderr

  /** The host: the launcher, and the streams whose reader fails when closed. */
  datatype Host = Host(exec: string -> Launch, failingCloses: set<StreamName>)

  /** A reader variable: still null, open, or closed. */
  datatype Reader = NotOpened | Open | Closed

  /** The framework's task statuses; this task produces only two of them. */
  datatype JobTaskStatus = Continue | Skip | Abort | Failed

  /** How `process` ends: it returns a status or an exception escapes it. */
  datatype Exit = Returned(status: JobTaskStatus) | Escapes

  /** How the try block ends. */
  datatype Thrown = NoException | CheckedIO | Unchecked

  datatype TryBlock = TryBlock(thrown: Thrown, document: Document, written: seq<string>,
                               lineReader: Reader, errorReader: Reader)

  /** Everything `process` leaves behind: its exit, the document, the fields it
      wrote in order, both reader variables, and how many close failures it swallowed. */
  datatype Run = Run(exit: Exit, document: Document, written: seq<string>,
                     lineReader: Reader, errorReader: Reader, suppressed: nat)

  /** What the launcher is asked for, if anything: nothing when the command or
      the runtime is still null, which throws a NullPointerException. */
  function Attempt(task: Task, host: Host): Option<Launch>
  {
    if task.Initialized? && task.command.Some? then Some(host.exec(task.command.value)) else None
  }

  predicate Completes(l: Launch)
  {
    l.Launched? && l.stdout.Readable? && l.stderr.Readable?
  }

  /** The value stored for a stream: its lines joined with the empty separator. */
  function Captured(text: string): string
  {
    Join(Lines(text))
  }

  /** The try block: launch, read stdout into the input field, read stderr into the error field. */
  function TryBody(attempt: Option<Launch>, doc: Document): (t: TryBlock)
    // Only a launch IOException reaches the catch block.
    ensures t.thrown == CheckedIO <==> attempt == Some(LaunchFails)
    ensures t.thrown == NoException <==> attempt.Some? && Completes(attempt.value)
    ensures t.thrown == NoException ==>
      t.written == [InputField, ErrField]
      && t.document == doc[InputField := Captured(attempt.value.stdout.text)]
                          [ErrField := Captured(attempt.value.stderr.text)]
    // The input field is written first, the error field second, and nothing else.
    ensures t.written <= [InputField, ErrField]
    ensures t.written == [InputField, ErrField] <==> t.thrown == NoException
    ensures t.written != [] <==> attempt.Some? && attempt.value.Launched? && attempt.value.stdout.Readable?
    ensures t.written == [] ==> t.document == doc
    ensures |t.written| == 1 ==> t.document == doc[InputField := Captured(attempt.value.stdout.text)]
    // A reader is opened once the process exists, the error reader only after stdout was read.
    ensures t.lineReader == Open <==> attempt.Some? && attempt.value.Launched?
    ensures t.errorReader == Open <==> attempt.Some? && attempt.value.Launched? && attempt.value.stdout.Readable?
    ensures t.lineReader != Closed && t.errorReader != Closed
  {
    match attempt
    case None => TryBlock(Unchecked, doc, [], NotOpened, NotOpened)
    case Some(LaunchFails) => TryBlock(CheckedIO, doc, [], NotOpened, NotOpened)
    case Some(LaunchThrows) => TryBlock(Unchecked, doc, [], NotOpened, NotOpened)
    case Some(Launched(Unreadable, _, _)) => TryBlock(Unchecked, doc, [], Open, NotOpened)
    case Some(Launched(Readable(out), Unreadable, _)) =>
      TryBlock(Unchecked, AddSingleField(doc, InputField, Captured(out)), [InputField], Open, Open)
    case Some(Launched(Readable(out), Readable(err), _)) =>
      var d := AddSingleField(AddSingleField(doc, InputField, Captured(out)), ErrField, Captured(err));
      TryBlock(NoException, d, [InputField, ErrField], Open, Open)
  }

  /** `IOUtils.closeQuietly`: a null reader is left alone; an open one ends up
      closed even when its close fails (`BufferedReader.close` drops its
      underlying stream in a `finally`), and the failure is only counted. */
  function CloseQuietly(r: Reader, fails: bool): (result: (Reader, nat))
    ensures result.0 != Open
    ensures result.0 == NotOpened <==> r == NotOpened
    ensures result.1 == 1 <==> r == Open && fails
    ensures result.1 <= 1
  {
    match r
    case NotOpened => (NotOpened, 0)
    case Open => (Closed, if fails then 1 else 0)
    case Closed => (Closed, 0)
  }

  function Process(task: Task, doc: Document, host: Host): (r: Run)
    // Only two statuses are ever returned.
    ensures r.exit != Returned(Skip) && r.exit != Returned(Abort)
    // FAILED comes from a launch IOException and nothing else.
    ensures r.exit == Returned(Failed) <==> Attempt(task, host) == Some(LaunchFails)
    ensures r.exit == Returned(Continue) <==> Attempt(task, host).Some? && Completes(Attempt(task, host).value)
    // On success both fields hold the joined lines; no exit code is involved.
    ensures r.exit == Returned(Continue) ==>
      var l := Attempt(task, host).value;
      && InputField in r.document && r.document[InputField] == Captured(l.stdout.text)
      && ErrField in r.document && r.document[ErrField] == Captured(l.stderr.text)
      && r.written == [InputField, ErrField]
    ensures r.exit == Returned(Failed) ==> r.document == doc && r.written == []
    // An escaping exception rolls nothing back: after a stderr read error the
    // input field stays written; on any earlier exception the document is untouched.
    ensures r.exit == Escapes ==>
      var a := Attempt(task, host);
      if a.Some? && a.value.Launched? && a.value.stdout.Readable? then
        r.written == [InputField] && r.document == doc[InputField := Captured(a.value.stdout.text)]
      else
        r.written == [] && r.document == doc
    // The input field, then the error field, and no other field.
    ensures r.written <= [InputField, ErrField]
    ensures forall k :: k !in r.written ==> (k in r.document <==> k in doc)
    ensures forall k :: k !in r.written && k in doc ==> r.document[k] == doc[k]
    // Every reader that was opened is closed; one never opened stays null.
    ensures r.lineReader != Open && r.errorReader != Open
    ensures r.lineReader == Closed <==> Attempt(task, host).Some? && Attempt(task, host).value.Launched?
    ensures r.errorReader == Closed <==>
      Attempt(task, host).Some? && Attempt(task, host).value.Launched? && Attempt(task, host).value.stdout.Readable?
    // Close failures are swallowed; they are only counted.
    ensures r.suppressed ==
      (if r.lineReader == Closed && Stdout in host.failingCloses then 1 else 0)
      + (if r.errorReader == Closed && Stderr in host.failingCloses then 1 else 0)
  {
    var t := TryBody(Attempt(task, host), doc);
    var (lineReader, lineSwallowed) := CloseQuietly(t.lineReader, Stdout in host.failingCloses);
    var (errorReader, errSwallowed) := CloseQuietly(t.errorReader, Stderr in host.failingCloses);
    var exit := match t.thrown
      case NoException => Returned(Continue)
      case CheckedIO => Returned(Failed)
      case Unchecked => Escapes;
    Run(exit, t.document, t.written, lineReader, errorReader, lineSwallowed + errSwallowed)
  }

  /** On success the two fields hold exactly the stream texts with their line terminators removed. */
  lemma CapturedFieldsAreStreamText(task: Task, doc: Document, host: Host)
    requires Process(task, doc, host).exit == Returned(Continue)
    ensures var l := Attempt(task, host).value;
      && Process(task, doc, host).document[InputField] == WithoutTerminators(l.stdout.text)
      && Process(task, doc, host).document[ErrField] == WithoutTerminators(l.stderr.text)
  {
    var l := Attempt(task, host).value;
    JoinedLinesDropTerminators(l.stdout.text);
    JoinedLinesDropTerminators(l.stderr.text);
  }

  /** Each run captures fresh output and overwrites both fields: processing a
      document that an earlier run already filled gives the same document as
      processing the original, so nothing accumulates. This holds for any two
      launcher answers under which both runs end in CONTINUE. */
  lemma RerunOverwritesFields(task: Task, doc: Document, host1: Host, host2: Host)
    requires Process(task, doc, host1).exit == Returned(Continue)
    requires Process(task, doc, host2).exit == Returned(Continue)
    ensures Process(task, Process(task, doc, host1).document, host2).document
         == Process(task, doc, host2).document
  {
  }

  /** Whether closing a reader fails never changes the exit, the document or the readers. */
  lemma CloseFailuresNeverChangeOutcome(task: Task, doc: Document, exec: string -> Launch,
                                        fails1: set<StreamName>, fails2: set<StreamName>)
    ensures var r1, r2 := Process(task, doc, Host(exec, fails1)), Process(task, doc, Host(exec, fails2));
      && r1.exit == r2.exit && r1.document == r2.document && r1.written == r2.written
      && r1.lineReader == r2.lineReader && r1.errorReader == r2.errorReader
  {
  }

  /** `process` hands the launcher the `commandField` entry captured by `init`,
      untransformed: launchers that agree on that one string give identical runs. */
  lemma LaunchesConfiguredCommand(formFields: map<string, string>, doc: Document, host1: Host, host2: Host)
    requires CommandStringField in formFields
    requires host1.exec(formFields[CommandStringField]) == host2.exec(formFields[CommandStringField])
    requires host1.failingCloses == host2.failingCloses
    ensures Process(Init(formFields), doc, host1) == Process(Init(formFields), doc, host2)
  {
  }

  /** `process` never waits for the process or reads its exit code: launches
      that differ only in the exit code give identical runs. */
  lemma ExitCodeNeverConsulted(task: Task, doc: Document, host1: Host, host2: Host)
    requires Attempt(task, host1).Some? && Attempt(task, host1).value.Launched?
    requires Attempt(task, host2).Some? && Attempt(task, host2).value.Launched?
    requires Attempt(task, host1).value.stdout == Attempt(task, host2).value.stdout
    requires Attempt(task, host1).value.stderr == Attempt(task, host2).value.stderr
    requires host1.failingCloses == host2.failingCloses
    ensures Process(task, doc, host1) == Process(task, doc, host2)
  {
  }

  /** A command that prints "hello" on one line and nothing on stderr. */
  lemma EchoHelloScenario(doc: Document, host: Host)
    requires host.exec("echo hello") == Launched(Readable("hello\n"), Readable(""), 0)
    ensures var r := Process(Init(map[CommandStringField := "echo hello"]), doc, host);
      && r.exit == Returned(Continue)
      && r.document[InputField] == "hello"
      && r.document[ErrField] == ""
  {
    assert Printed(["hello"]) == "hello\n" by {
      assert ["hello"][1..] == [];
    }
    LinesOfPrinted(["hello"]);
    JoinCons("hello", []);
  }

  /** A command containing "shutdown" is refused with a message naming the word. */
  lemma ShutdownScenario()
    ensures var v := ValidateFormFields(map[CommandStringField := "shutdown now"]);
      v.Rejected? && IsSubstring(InvalidCommand1, v.message)
  {
    assert OccursAt("shutdown now", InvalidCommand1, 0);
    RejectionNamesForbiddenWord();
  }
}

=== FILE: strings.dfy ===
/**
 The two string operations of the Java standard library the task relies on:
 `String.contains` (a case-sensitive substring test, used to screen the
 configured command) and `Collectors.joining()` (concatenation of a stream of
 strings with the empty separator, used to collapse the lines of a process
 stream into one field value).
 */
module Strings {

  /** `p` occurs in `s` starting at index `i`. */
  ghost predicate OccursAt(s: string, p: string, i: int)
  {
    0 <= i && i + |p| <= |s| && s[i..i + |p|] == p
  }

  /** `p` is a substring of `s`, compared character by character (no case folding). */
  ghost predicate IsSubstring(p: string, s: string)
  {
    exists i :: OccursAt(s, p, i)
  }

  /** An occurrence at `i >= 1` in `s` is an occurrence at `i - 1` in `s[1..]`. */
  lemma ShiftOccurrence(s: string, p: string, i: int)
    requires 1 <= i && |s| >= 1
    ensures OccursAt(s, p, i) <==> OccursAt(s[1..], p, i - 1)
  {
    if i + |p| <= |s| {
      assert s[1..][i - 1..i - 1 + |p|] == s[i..i + |p|];
    }
  }

  /** When `p` does not start `s`, it occurs in `s` exactly when it occurs in `s[1..]`. */
  lemma SubstringOfTail(s: string, p: string)
    requires |p| <= |s| && s[..|p|] != p
    ensures IsSubstring(p, s) <==> IsSubstring(p, s[1..])
  {
    if IsSubstring(p, s[1..]) {
      var j :| OccursAt(s[1..], p, j);
      ShiftOccurrence(s, p, j + 1);
    }
    if IsSubstring(p, s) {
      var i :| OccursAt(s, p, i);
      assert s[..|p|] == s[0..|p|];
      assert i != 0;
      ShiftOccurrence(s, p, i);
    }
  }

  /** Java's `s.contains(p)`: tries every start position from the left, and
      answers true exactly when `p` occurs somewhere in `s`. */
  function Contains(s: string, p: string): (r: bool)
    ensures r <==> IsSubstring(p, s)
    decreases |s|
  {
    if |p| > |s| then
      assert !IsSubstring(p, s);
      false
    else if s[..|p|] == p then
      assert OccursAt(s, p, 0);
      true
    else
      SubstringOfTail(s, p);
      Contains(s[1..], p)
  }

  /** Total number of characters in `parts`. */
  function TotalLength(parts: seq<string>): nat
  {
    if parts == [] then 0 else |parts[0]| + TotalLength(parts[1..])
  }

  /** `Collectors.joining()`: the parts laid end to end, no separator inserted. */
  function Join(parts: seq<string>): (r: string)
    ensures |r| == TotalLength(parts)
  {
    if parts == [] then "" else parts[0] + Join(parts[1..])
  }

  /** Joining distributes over concatenation of the part lists. */
  lemma {:induction false} JoinAppend(a: seq<string>, b: seq<string>)
    ensures Join(a + b) == Join(a) + Join(b)
    decreases |a|
  {
    if a == [] {
      assert a + b == b;
    } else {
      JoinAppend(a[1..], b);
      assert (a + b)[1..] == a[1..] + b;
    }
  }

  /** A single part is joined to itself, and a leading part stays in front. */
  lemma {:induction false} JoinCons(x: string, rest: seq<string>)
    ensures Join([x] + rest) == x + Join(rest)
    ensures Join([x]) == x
  {
    assert ([x] + rest)[1..] == rest;
    assert [x][1..] == [];
  }

  /** Every part appears, unchanged, at the offset given by the parts before it. */
  lemma {:induction false} JoinKeepsParts(parts: seq<string>, i: int)
    requires 0 <= i < |parts|
    ensures OccursAt(Join(parts), parts[i], TotalLength(parts[..i]))
  {
    var before, after := parts[..i], parts[i + 1..];
    assert parts == before + ([parts[i]] + after);
    JoinAppend(before, [parts[i]] + after);
    JoinCons(parts[i], after);
    var pre := Join(before);
    assert Join(parts) == pre + (parts[i] + Join(after));
    assert |pre| == TotalLength(before);
    assert Join(parts)[|pre|..|pre| + |parts[i]|] == parts[i];
  }
}
